=== FILE: README.md ===
# glTF test framework: sample sets and export-test helpers

A Dafny model of the pure decision logic of the glTF test framework for Unity:

- **Sample sets** (`Runtime/Scripts/Sample/SampleSet.cs`). A sample set is an ordered list of
  entries `(active, name, path)` together with the settings that locate the models: a
  StreamingAssets sub-folder, a folder below the repository's `assets` directory, an absolute
  fallback path, and a web and a local-server URL. The model covers the listings
  (`GetItems`, `GetItemsPrefixed`, `GetTestItems`), the lookup by name (`TryGetTestItem`),
  bulk activation (`SetAllActive`), the `.gltf`/`.glb` filter of `LoadItemsFromPath`, the
  priority chains of `localFilePath` and `remoteUri`, and the list-file name rewrite of
  `CreateListFile`.
- **GameObject export test** (`Tests/Runtime/Export/GameObjectExportTest.cs`). The rewrite of
  the `"generator"` value of a glTF JSON text (`GltfJsonSetGenerator`), the choice of the root
  object a generated test case exports (`GetGameObject`), the export scene per render
  pipeline (`GetExportSceneName`), and the equality rule for mesh/material combinations that
  `MeshMaterialCombinationTest` asserts.

The host is a parameter. The `SampleSets.Host` record carries these oracles:

- Unity's StreamingAssets path;
- the `GLTF_TEST_ASSET_DIR` variable;
- the repository root above `Application.dataPath`;
- whether the code runs in the editor;
- `Directory.Exists` and `Path.Combine`, as functions.

`string.GetHashCode` is a function into a 32-bit integer. The `"X"` format of that hash is
modelled exactly: upper-case two's-complement hex without leading zeros.

Modules:

- `Selection`: order-preserving selection, i.e. a `foreach` with a `continue` filter. It
  also provides the first match, i.e. a search loop with `break`.
- `Strings`: ordinal `IndexOf` and `Replace`.
- `HexFormat`: the `"X"` format.
- `SampleSets`: `SampleSet.cs`.
- `GltfJson`: the generator rewrite.
- `ExportTest`: the other export-test helpers.
- `Wrappers`: `Option` and `Result`.

## Model

| member | source | states |
|---|---|---|
| `SampleSets.NewSampleSet` | Runtime/Scripts/Sample/SampleSet.cs:39-63 | a new asset has no entries, an empty local path, the `glTF-Sample-Models` StreamingAssets folder and non-empty web and local-server URLs |
| `SampleSets.GetAssetsPath` | Runtime/Scripts/Sample/SampleSet.cs:255-272 | the assets folder is the environment override if it is set and exists, otherwise `<root>/assets` if the root is known and that exists, otherwise null; whatever it returns exists |
| `SampleSets.AssetAbsolutePath` | Runtime/Scripts/Sample/SampleSet.cs:91-106 | returns a path only when `assetRelativePath` is set and the assets folder is known; the path is the relative path below the assets folder and exists; null exactly when one of these fails |
| `SampleSets.GetSourcePath` | Runtime/Scripts/Sample/SampleSet.cs:138-145 | the source is `baseLocalPath` or an existing, non-empty asset directory; a non-empty asset directory always wins |
| `SampleSets.LocalFilePath` | Runtime/Scripts/Sample/SampleSet.cs:73-86 | the three-level priority: StreamingAssets folder if set and existing, else the asset folder if set, known, non-empty and existing, else `baseLocalPath` |
| `SampleSets.LocalFilePathExistsOrFallsBack` | Runtime/Scripts/Sample/SampleSet.cs:73-86 | the local path is an existing directory unless it is the `baseLocalPath` fallback |
| `SampleSets.RemoteUri` | Runtime/Scripts/Sample/SampleSet.cs:108-118 | never empty; the local-server URL in the editor when set, else the web URL when set, else `<baseUrlWeb not set!>` |
| `SampleSets.Prefix` | Runtime/Scripts/Sample/SampleSet.cs:157-158 | the local prefix is an existing directory unless it is the `baseLocalPath` fallback; the remote prefix is never empty |
| `SampleSets.ItemCount` | Runtime/Scripts/Sample/SampleSet.cs:65 | `itemCount` is the number of entries, active or not: at least as many as the listings hold, and exactly as many iff every entry is active |
| `SampleSets.GetItems` | Runtime/Scripts/Sample/SampleSet.cs:147-155 | exactly one item per active entry, in list order; the path is kept and the name is the entry name, a dash and the hex hash of the path |
| `SampleSets.GetItemsSuffixIsHash` | Runtime/Scripts/Sample/SampleSet.cs:151 | each listed name is the entry name, a dash, and hex digits that read back as the path's hash modulo 2^32 |
| `SampleSets.GetItemsPrefixed` | Runtime/Scripts/Sample/SampleSet.cs:157-170 | nothing for an empty prefix; otherwise exactly the active entries in order, name kept, path `prefix/path` |
| `SampleSets.GetTestItems` | Runtime/Scripts/Sample/SampleSet.cs:172-185 | the same listing as `GetItemsPrefixed`: its body is identical |
| `SampleSets.RemoteListingIsComplete` | Runtime/Scripts/Sample/SampleSet.cs:157-170 | a remote listing always holds every active entry, below `remoteUri` |
| `SampleSets.TryGetTestItem` | Runtime/Scripts/Sample/SampleSet.cs:187-205 | true iff an active entry has that exact name and the prefix is non-empty; then the item is the first such entry with path `prefix/path`; inactive namesakes are skipped; on false the item is the default |
| `SampleSets.TryGetTestItemAgreesWithListing` | Runtime/Scripts/Sample/SampleSet.cs:187-205 | the lookup succeeds exactly when the prefixed listing holds an item of that name, and returns the first such item of the listing |
| `SampleSets.SetAllActive` | Runtime/Scripts/Sample/SampleSet.cs:226-230 | every flag becomes the argument; entry count, names, paths and all settings are unchanged |
| `SampleSets.ActiveIndicesUniform` | Runtime/Scripts/Sample/SampleSet.cs:226-230 | when all flags are equal, the active positions are all positions (flags true) or none (flags false) |
| `SampleSets.SetAllActiveListing` | Runtime/Scripts/Sample/SampleSet.cs:226-230 | after activating all, `GetItems` lists every entry in order; after deactivating all, it lists nothing |
| `SampleSets.LoadItemsFromPath` | Runtime/Scripts/Sample/SampleSet.cs:207-224 | the entries become exactly the `.gltf`/`.glb` files in enumeration order, active, named by file name, path = full name minus the directory's full name and the one character after it (normally the separator); other settings stay; among the enumerated files, it throws exactly when a model file's full name is too short |
| `SampleSets.LoadedPathsAreRelative` | Runtime/Scripts/Sample/SampleSet.cs:207-224 | for files below the directory, loading succeeds; `itemCount` is the number of model files; each full name is the directory's full name, one character (normally the separator) and the stored path |
| `SampleSets.LoadedItemsAreListed` | Runtime/Scripts/Sample/SampleSet.cs:207-224 | after loading, `GetItems` lists every loaded entry and `itemCount` is the number of model files |
| `SampleSets.ListFileName` | Runtime/Scripts/Sample/SampleSet.cs:316-317 | a name without a dash is its own list-file name |
| `SampleSets.ListFileNameOfVariant` | Runtime/Scripts/Sample/SampleSet.cs:316-317 | `<a>-Sample-Models-<b>` becomes `<a>_<b>` for dash-free parts: the infix rewrite happens before the suffix removal |
| `SampleSets.ListFileNameOfPlain` | Runtime/Scripts/Sample/SampleSet.cs:316-317 | `<a>-Sample-Models` becomes `<a>` for a dash-free `a` |
| `SampleSets.ListFileNameOfBinarySet` | Runtime/Scripts/Sample/SampleSet.cs:316-317 | `glTF-Sample-Models-glb` becomes `glTF_glb` |
| `SampleSets.ListFileNameOfMainSet` | Runtime/Scripts/Sample/SampleSet.cs:316-317 | `glTF-Sample-Models` becomes `glTF` |
| `HexFormat.FormatX` | Runtime/Scripts/Sample/SampleSet.cs:151 | the `{1:X}` text of a hash: 1 to 8 upper-case hex digits, no leading zero, reading back as the hash modulo 2^32 (negative hashes as their two's complement) |
| `HexFormat.ParseHexOfNat` | Runtime/Scripts/Sample/SampleSet.cs:151 | the minimal hex digits of a number read back as that number |
| `HexFormat.FormatXInjective` | Runtime/Scripts/Sample/SampleSet.cs:151 | distinct hashes give distinct name suffixes |
| `Strings.ReplaceAll` | Runtime/Scripts/Sample/SampleSet.cs:316-317 | ordinal `Replace`: a text without the pattern's first character is returned unchanged; a replacement as long as the pattern keeps the length |
| `Strings.IndexOf` | Tests/Runtime/Export/GameObjectExportTest.cs:598 | ordinal `IndexOf(string)`: -1 iff the pattern occurs nowhere, otherwise an occurrence with none before it |
| `Strings.IndexOfChar` | Tests/Runtime/Export/GameObjectExportTest.cs:600-602 | `IndexOf(char, int)`: -1 iff the character is absent from the start index on, otherwise its first position there |
| `Strings.ReplaceAllKeepsPrefix` | Runtime/Scripts/Sample/SampleSet.cs:316-317 | `Replace` leaves a prefix free of the pattern's first character untouched and rewrites only the rest |
| `GltfJson.SetGeneratorAsWritten` | Tests/Runtime/Export/GameObjectExportTest.cs:596-608 | the rewrite as the code reads; it throws only when the key is present (its results are stated by the lemmas below) |
| `GltfJson.SetGenerator` | Tests/Runtime/Export/GameObjectExportTest.cs:589-608 | the rewrite as its doc comment describes it; it throws only when the key is present |
| `GltfJson.SetGeneratorFailsAlike` | Tests/Runtime/Export/GameObjectExportTest.cs:600-608 | both versions throw on exactly the same texts: the missing closing quote after an opening one |
| `GltfJson.SetGeneratorKeepsKey` | Tests/Runtime/Export/GameObjectExportTest.cs:589-608 | the corrected rewrite never changes the text up to the end of the first key |
| `GltfJson.SetGeneratorWithoutKey` | Tests/Runtime/Export/GameObjectExportTest.cs:596-599 | without a `"generator"` key the text is returned unchanged |
| `GltfJson.SetGeneratorSplices` | Tests/Runtime/Export/GameObjectExportTest.cs:600-608 | start is just after the first quote following the first key, end is the next quote; output = text before start + new value + text from end; length = old length - (end - start) + new length; both ends preserved |
| `GltfJson.SetGeneratorAsWrittenSplices` | Tests/Runtime/Export/GameObjectExportTest.cs:600-608 | the code as written makes the same splice as the corrected rewrite whenever the key is followed by a quoted value |
| `GltfJson.SetGeneratorUnterminated` | Tests/Runtime/Export/GameObjectExportTest.cs:603-607 | an opening quote without a closing one makes the splice throw |
| `GltfJson.SetGeneratorIdempotent` | Tests/Runtime/Export/GameObjectExportTest.cs:596-608 | for the corrected rewrite and a new value without quotes, normalising a normalised text changes nothing |
| `GltfJson.SetGeneratorAsWrittenIdempotent` | Tests/Runtime/Export/GameObjectExportTest.cs:596-608 | the code as written, which `AssertGltfJson` applies to both texts, is idempotent too for a new value without quotes, including the case where no quote follows the key |
| `GltfJson.SetGeneratorWithoutValue` | Tests/Runtime/Export/GameObjectExportTest.cs:589-602 | the corrected rewrite leaves the text unchanged when no quote follows the key, matching "replaces the property (if found)" |
| `GltfJson.SetGeneratorAsWrittenWithoutValue` | Tests/Runtime/Export/GameObjectExportTest.cs:600-607 | the code as written returns the new value followed by the text from the document's first quote when no quote follows the key |
| `GltfJson.SetGeneratorOverwritesNextString` | Tests/Runtime/Export/GameObjectExportTest.cs:600-608 | both versions take the first quote after the key for the value's opening quote: `{"generator":1,"v":"x"}` becomes `{"generator":1,"":"x"}` |
| `GltfJson.SetGeneratorAsWrittenMasksDifference` | Tests/Runtime/Export/GameObjectExportTest.cs:468-470 | the texts `{"generator":1}` and `["generator":1}` compare equal after the normalisation as written and unequal after the intended one |
| `GltfJson.AsWrittenDropsFirstChar` | Tests/Runtime/Export/GameObjectExportTest.cs:600-607 | for any first character other than a quote, the code as written drops it from `<c>"generator":1}`, while the intended version returns the text |
| `GltfJson.SetGeneratorAsWrittenDropsBrace` | Tests/Runtime/Export/GameObjectExportTest.cs:600-607 | on `{"generator":1}` the code as written returns `"generator":1}`, while the corrected rewrite returns the input |
| `ExportTest.GetExportSceneName` | Tests/Runtime/Export/GameObjectExportTest.cs:578-587 | HighDefinition maps to `ExportSceneHighDefinition` and Universal to `ExportSceneUniversal`; every other pipeline maps to `ExportSceneBuiltIn`; each in both directions |
| `ExportTest.ExportSceneNameSeparatesPipelines` | Tests/Runtime/Export/GameObjectExportTest.cs:578-587 | two pipelines share a scene iff they are equal or neither is a scriptable pipeline |
| `ExportTest.GetGameObject` | Tests/Runtime/Export/GameObjectExportTest.cs:375-393 | out-of-range index throws; otherwise succeeds iff some root has the name; the object at `index` wins if it has the name, else the first root with the name; with no such root the name assertion fails on `objects[index]` |
| `ExportTest.GetGameObjectFindsMovedObject` | Tests/Runtime/Export/GameObjectExportTest.cs:378-388 | with distinct root names, a test case finds its object wherever the build placed it |
| `ExportTest.CombinationEquals` | Tests/Runtime/Export/GameObjectExportTest.cs:144-162 | two combinations are equal iff the mesh ids match and the material arrays are both null or both present with equal length and elements; this is structural equality |
| `ExportTest.SameCombinationIsEquality` | Tests/Runtime/Export/GameObjectExportTest.cs:144-162 | the rule coincides with structural equality; a null array never equals a present one |
| `ExportTest.MeshMaterialCombinationCases` | Tests/Runtime/Export/GameObjectExportTest.cs:144-162 | the six equalities and inequalities the test asserts hold under the rule |

## Findings

| source | as written | input that shows it | evidently intended | confidence | as-written member | corrected member |
|---|---|---|---|---|---|---|
| Tests/Runtime/Export/GameObjectExportTest.cs:600-607 | When no `"` follows the key, `IndexOf` returns -1 and `start` becomes 0. The closing search then finds the document's first quote, so the result is the new value followed by the text from that quote. | `{"generator":1}` with the default new value `""` yields `"generator":1}`: the opening brace is lost. | The doc comment says the property is replaced "if found". When no `"` follows the key there is nothing to replace, so the text should stay unchanged. | not executed; medium: the exporter writes `asset.generator` as a string, so its own files reach this path only if a `"generator"` with no quote after it comes first; other valid glTF files can reach it, since the search takes the first `"generator"` anywhere (for example a node named `generator` in a file without `asset.generator`) | `GltfJson.SetGeneratorAsWritten`, exhibited by `GltfJson.SetGeneratorAsWrittenDropsBrace`, `GltfJson.AsWrittenDropsFirstChar`, `GltfJson.SetGeneratorAsWrittenWithoutValue` and `GltfJson.SetGeneratorAsWrittenMasksDifference` | `GltfJson.SetGenerator`, proved by `GltfJson.SetGeneratorWithoutValue` and `GltfJson.SetGeneratorKeepsKey`; `GltfJson.SetGeneratorIdempotent` is stated for it |

Both versions agree on every text with a quoted value (`GltfJson.SetGeneratorSplices` and `GltfJson.SetGeneratorAsWrittenSplices`). Both also throw when the closing quote is missing (`GltfJson.SetGeneratorUnterminated`), and on no other text (`GltfJson.SetGeneratorFailsAlike`). Both are idempotent for a new value without quotes (`GltfJson.SetGeneratorIdempotent`, `GltfJson.SetGeneratorAsWrittenIdempotent`): each normalised text is a fixed point of its own version. Idempotence does not make the test's comparison of two normalised texts immune to the defect. The code as written normalises `{"generator":1}` and `["generator":1}` to the same text, so a difference before the document's first quote can go unnoticed; the intended version keeps the two apart (`GltfJson.SetGeneratorAsWrittenMasksDifference`).

The corrected version fixes only the case where no quote follows the key. A generator value that is not a string but is followed by another string is still mishandled by both versions: the next string's content is replaced (`GltfJson.SetGeneratorOverwritesNextString`). The model keeps this behaviour because the code has it. A file whose first `"generator"` is a string-valued `asset.generator`, which is what the exporter writes, never has it. Other valid glTF files can: the search takes the first `"generator"` anywhere in the text, and `asset.generator` is optional.

## Left out

- The buffer-conversion kernels of `Tests/Runtime/JobBenchmark.cs` (`GLTFast.Jobs.*`) are not part of this model. They live in the external glTF library, they use unsafe pointers, parallel jobs and floating point, and the benchmark only times them.
- `Tests/Runtime/Performance/MatrixExtensionTest.cs` is left out. It benchmarks a floating-point matrix decomposition from an external library.
- The float-tolerance comparisons of `Tests/Runtime/Utils.cs` are left out because they are floating point.
- File and directory I/O and serialisation are left out. This covers `FromStreamingAssets`, `CopyToStreamingAssets` and `CreateJSON`, plus the file writing in `CreateListFile` (only its name rewrite is modelled). It also covers the editor scripts under `Editor/`, `UpdateObjectList` and the JSON utilities.
- `GetProjectPath` is left out. None of the modelled members calls it; it only reads an environment variable and Unity's data path.
- `Path.Combine`, `Directory.Exists` and `string.GetHashCode` are oracles in `SampleSets.Host` and the `hash` parameter. Their own semantics (separators, rooted paths, the hash algorithm) are not modelled.
- C# `null` strings are modelled as the empty string. Unity serialises string fields as empty strings, so stored entries never hold null; only the nulls of a default `SampleSetItem` (returned by a failed `TryGetTestItem` as `Item("", "")`) and a null `assetAbsolutePath` (`None`) are modelled. Two places would tell null from "" if an entry held null: the ordinal `==` on names (SampleSet.cs line 190), under which a null name does not equal `""` while the model's empty name does, and `path.GetHashCode()` (line 151), which would throw on a null path where `SampleSets.GetItems` returns a value.
- SampleSets.LoadItemsFromPath: the enumerated files are an input, and nothing ties the directory's full name to `localFilePath`. The exceptions of the directory access itself are not modelled: `new DirectoryInfo("")` throws when `localFilePath` is empty (as it is for a new asset with no existing directory), and `GetFiles` throws for a missing directory. The contract covers only the failures among the enumerated files. These are `DirectoryInfo.GetFiles` with the search pattern applied recursively, together with the directory's full name. The model does not derive `Name`, `Extension` or `FullName` from a file system. The extension test is ordinal and case-sensitive, as in the source.
- Dafny strings index Unicode scalar values, while .NET `Length`, `Substring`, `IndexOf` and `StringBuilder.Append(string, int, int)` count UTF-16 code units. Positions agree as long as the text holds no character outside the Basic Multilingual Plane before the position in question; paths and glTF keys are assumed to.
- SampleSets.LoadedPathsAreRelative: the character cut after the directory's full name is whatever stands there, as in the source; the model does not promise it is a separator. When `DirectoryInfo.FullName` already ends in a separator, the source would cut the first character of each relative path. This was not executed, and the model does not rule it out.
- `string.IndexOf(string)` is culture-sensitive in .NET. The model uses ordinal matching, which agrees on the ASCII key `"generator"` except for culture-ignorable characters.
- The `RenderPipeline` enum belongs to the external glTF library. The model lists `Unknown`, `BuiltIn`, `Universal` and `HighDefinition`. Only the last two have their own branch; the others reach the default branch.
- ExportTest.GetGameObject: the active scene's root objects are given by their names, and the result is a position. `Assert.NotNull` is omitted because root objects of a loaded scene are never null.
- `MeshMaterialCombination` is a class of the external library. Its equality is restated from the test's assertions as `ExportTest.SameCombination`, with `ExportTest.CombinationEquals` as an element-wise implementation.
- The async test runner, NUnit case generation, scene loading, import, render, cancellation and performance fixtures are left out. They are wrappers around the external loader and the Unity runtime.

=== FILE: export_test.dfy ===
/**
  Selection helpers of the GameObject export test: which export scene to load
  for the active render pipeline, which root object a generated test case
  exports, and the equality rule the test pins down for mesh/material
  combinations.
*/
module ExportTest {
  import opened Wrappers
  import opened Selection

  /** The render pipeline the project runs with (an enum of the glTF library). */
  datatype RenderPipeline = Unknown | BuiltIn | Universal | HighDefinition

  /** `GetExportSceneName`: the scene holding the export test objects for a pipeline. */
  function GetExportSceneName(rp: RenderPipeline): (name: string)
    ensures name == "ExportSceneHighDefinition" <==> rp == HighDefinition
    ensures name == "ExportSceneUniversal" <==> rp == Universal
    ensures name == "ExportSceneBuiltIn" <==> rp != HighDefinition && rp != Universal
  {
    match rp
    case HighDefinition => "ExportSceneHighDefinition"
    case Universal => "ExportSceneUniversal"
    case _ => "ExportSceneBuiltIn"
  }

  /** Two pipelines share a scene exactly when neither is one of the scriptable pipelines, or they are the same. */
  lemma ExportSceneNameSeparatesPipelines(a: RenderPipeline, b: RenderPipeline)
    ensures GetExportSceneName(a) == GetExportSceneName(b) <==>
      a == b || (a in {Unknown, BuiltIn} && b in {Unknown, BuiltIn})
  {
  }

  /** How a generated test case fails before exporting anything. */
  datatype TestFailure =
    | IndexOutOfRange                              // `objects[index]` throws
    | NameMismatch(expected: string, actual: string)  // `Assert.AreEqual(objectName, gameObject.name)` fails

  function HasName(name: string): string -> bool {
    n => n == name
  }

  /**
    `GetGameObject` over the active scene's root objects, given by their
    names: the object at `index` if it carries `objectName`, otherwise the
    first root object that does. The result is the chosen position.
  */
  function GetGameObject(roots: seq<string>, index: int, objectName: string): (r: Result<nat, TestFailure>)
    ensures !(0 <= index < |roots|) ==> r == Failure(IndexOutOfRange)
    ensures 0 <= index < |roots| ==> (r.Success? <==> objectName in roots)
    ensures 0 <= index < |roots| && objectName !in roots ==> r == Failure(NameMismatch(objectName, roots[index]))
    ensures r.Success? ==> r.value < |roots| && roots[r.value] == objectName
    ensures r.Success? && roots[index] == objectName ==> r.value == index
    ensures r.Success? && roots[index] != objectName ==> forall j :: 0 <= j < r.value ==> roots[j] != objectName
  {
    if !(0 <= index < |roots|) then Failure(IndexOutOfRange)
    else
      var chosen :=
        if roots[index] == objectName then index
        else match FirstIndex(roots, HasName(objectName))
          case Some(i) => i
          case None => index;
      if roots[chosen] == objectName then Success(chosen)
      else Failure(NameMismatch(objectName, roots[chosen]))
  }

  /**
    Root-object order may differ between the editor and a build: when the
    names are distinct, a test case finds its object wherever it ended up.
  */
  lemma GetGameObjectFindsMovedObject(roots: seq<string>, index: int, objectName: string, at: nat)
    requires 0 <= index < |roots| && at < |roots| && roots[at] == objectName
    requires forall i, j :: 0 <= i < j < |roots| ==> roots[i] != roots[j]
    ensures GetGameObject(roots, index, objectName) == Success(at)
  {
    assert objectName in roots;
  }

  /** `MeshMaterialCombination`: a mesh id and a material id array that may be null. */
  datatype Combination = Combination(meshId: int, materialIds: Option<seq<int>>)

  /**
    The equality the test asserts: same mesh id, and either both material
    arrays null or both present with the same length and elements.
  */
  predicate SameCombination(a: Combination, b: Combination) {
    && a.meshId == b.meshId
    && match (a.materialIds, b.materialIds)
       case (None, None) => true
       case (Some(x), Some(y)) => |x| == |y| && forall i :: 0 <= i < |x| ==> x[i] == y[i]
       case _ => false
  }

  /** The element-wise comparison of `SameCombination`, as an `Equals` implementation performs it. */
  method CombinationEquals(a: Combination, b: Combination) returns (equal: bool)
    ensures equal <==> SameCombination(a, b)
    ensures equal <==> a == b
  {
    if a.meshId != b.meshId {
      return false;
    }
    match (a.materialIds, b.materialIds)
    case (None, None) =>
      return true;
    case (Some(x), Some(y)) =>
      if |x| != |y| {
        return false;
      }
      var i := 0;
      while i < |x|
        invariant 0 <= i <= |x|
        invariant forall j :: 0 <= j < i ==> x[j] == y[j]
      {
        if x[i] != y[i] {
          return false;
        }
        i := i + 1;
      }
      assert x == y;
      return true;
    case _ =>
      return false;
  }

  /** The rule is structural equality of the combination; in particular null never equals an array. */
  lemma SameCombinationIsEquality(a: Combination, b: Combination)
    ensures SameCombination(a, b) <==> a == b
    ensures a.materialIds.None? != b.materialIds.None? ==> !SameCombination(a, b)
  {
    if SameCombination(a, b) && a.materialIds.Some? {
      assert a.materialIds.value == b.materialIds.value;
    }
  }

  /** The cases `MeshMaterialCombinationTest` asserts. */
  lemma MeshMaterialCombinationCases()
    ensures SameCombination(Combination(42, Some([1, 2, 3])), Combination(42, Some([1, 2, 3])))
    ensures !SameCombination(Combination(42, Some([1, 2, 4])), Combination(42, Some([1, 2, 3])))
    ensures !SameCombination(Combination(42, Some([1, 2])), Combination(42, Some([1, 2, 3])))
    ensures !SameCombination(Combination(42, None), Combination(42, Some([1, 2, 3])))
    ensures SameCombination(Combination(42, None), Combination(42, None))
    ensures !SameCombination(Combination(13, None), Combination(42, None))
  {
    assert [1, 2, 4][2] != [1, 2, 3][2];
  }
}

=== FILE: gltf_json.dfy ===
/**
  The export test's normalisation of glTF JSON before comparing it with a
  stored target: the string value of the first `"generator"` key is replaced,
  so that differing exporter versions do not make otherwise equal files differ.
*/
module GltfJson {
  import opened Wrappers
  import opened Strings

  /** The searched key, quotes included (11 characters). */
  const GeneratorKey: string := "\"generator\""

  /** `StringBuilder.Append(string, int, int)` throws when the closing quote is missing (its start is -1). */
  datatype SpliceError = AppendOutOfRange

  /** The first occurrence of the key starts at `k`. */
  ghost predicate FirstKeyAt(json: string, k: int) {
    Occurs(json, GeneratorKey, k) && forall i :: 0 <= i < k ==> !Occurs(json, GeneratorKey, i)
  }

  /**
    `json[start - 1]` is the first quote after the key at `k`, which the rewrite
    takes for the value's opening quote. For a string value it is; for any other
    value it is the quote of whatever string comes next.
  */
  ghost predicate OpensValueAt(json: string, k: int, start: int) {
    && 0 <= k && k + |GeneratorKey| < start <= |json|
    && json[start - 1] == '"'
    && forall i :: k + |GeneratorKey| <= i < start - 1 ==> json[i] != '"'
  }

  /** `json[end]` is the first quote at or after `start`. */
  ghost predicate ClosesValueAt(json: string, start: int, end: int) {
    && 0 <= start <= end < |json|
    && json[end] == '"'
    && forall i :: start <= i < end ==> json[i] != '"'
  }

  /** No quote at or after `from`. */
  ghost predicate NoQuoteFrom(json: string, from: int) {
    forall i :: 0 <= from <= i < |json| ==> json[i] != '"'
  }

  /**
    `GltfJsonSetGenerator` as written. When no quote follows the key,
    `IndexOf` yields -1, the start becomes 0 and the "closing" quote is the
    first quote of the whole text: everything before it is dropped.
  */
  function SetGeneratorAsWritten(json: string, newGenerator: string): (r: Result<string, SpliceError>)
    ensures r.Failure? ==> IndexOf(json, GeneratorKey) >= 0
  {
    var key := IndexOf(json, GeneratorKey);
    if key < 0 then Success(json)
    else
      assert json[key..key + |GeneratorKey|][0] == json[key];
      var open := IndexOfChar(json, '"', key + |GeneratorKey|);
      var start := open + 1;
      var end := IndexOfChar(json, '"', start);
      if end < 0 then Failure(AppendOutOfRange)
      else Success(json[..start] + newGenerator + json[end..])
  }

  /**
    `GltfJsonSetGenerator` as intended: the text between the quotes that
    follow the first `"generator"` key becomes `newGenerator`; the text is
    returned unchanged when there is no key or no quoted value after it.
  */
  function SetGenerator(json: string, newGenerator: string): (r: Result<string, SpliceError>)
    ensures r.Failure? ==> IndexOf(json, GeneratorKey) >= 0
  {
    var key := IndexOf(json, GeneratorKey);
    if key < 0 then Success(json)
    else
      var open := IndexOfChar(json, '"', key + |GeneratorKey|);
      if open < 0 then Success(json)
      else
        var start := open + 1;
        var end := IndexOfChar(json, '"', start);
        if end < 0 then Failure(AppendOutOfRange)
        else Success(json[..start] + newGenerator + json[end..])
  }

  // ---------------------------------------------------------------------------
  // Where the searches land

  lemma KeySearch(json: string, k: int)
    requires FirstKeyAt(json, k)
    ensures IndexOf(json, GeneratorKey) == k
  {
  }

  lemma QuoteSearch(json: string, from: nat, q: int)
    requires from <= q < |json| && json[q] == '"'
    requires forall i :: from <= i < q ==> json[i] != '"'
    ensures IndexOfChar(json, '"', from) == q
  {
  }

  lemma NoQuoteSearch(json: string, from: nat)
    requires from <= |json| && NoQuoteFrom(json, from)
    ensures IndexOfChar(json, '"', from) == -1
  {
  }

  // ---------------------------------------------------------------------------
  // Behaviour

  /** Without the key, both versions return the text unchanged. */
  lemma SetGeneratorWithoutKey(json: string, newGenerator: string)
    requires forall i :: !Occurs(json, GeneratorKey, i)
    ensures SetGenerator(json, newGenerator) == Success(json)
    ensures SetGeneratorAsWritten(json, newGenerator) == Success(json)
  {
  }

  /**
    With the key, an opening and a closing quote, both versions splice:
    everything up to and including the opening quote and everything from the
    closing quote on is kept, and the value between becomes `newGenerator`.
  */
  lemma SetGeneratorSplices(json: string, newGenerator: string, k: int, start: int, end: int)
    requires FirstKeyAt(json, k) && OpensValueAt(json, k, start) && ClosesValueAt(json, start, end)
    ensures SetGenerator(json, newGenerator) == Success(json[..start] + newGenerator + json[end..])
    ensures var out := SetGenerator(json, newGenerator).value;
      && |out| == |json| - (end - start) + |newGenerator|
      && out[..start] == json[..start]
      && out[start..start + |newGenerator|] == newGenerator
      && out[start + |newGenerator|..] == json[end..]
  {
    SetGeneratorResult(json, newGenerator, k, start, end);
    SpliceShape(json, newGenerator, start, end);
  }

  /** The intended version's result on a text with a quoted value. */
  lemma SetGeneratorResult(json: string, newGenerator: string, k: int, start: int, end: int)
    requires FirstKeyAt(json, k) && OpensValueAt(json, k, start) && ClosesValueAt(json, start, end)
    ensures SetGenerator(json, newGenerator) == Success(json[..start] + newGenerator + json[end..])
  {
    ValueSearches(json, k, start, end);
  }

  /** On a text with a quoted value the code as written splices like the intended version. */
  lemma SetGeneratorAsWrittenSplices(json: string, newGenerator: string, k: int, start: int, end: int)
    requires FirstKeyAt(json, k) && OpensValueAt(json, k, start) && ClosesValueAt(json, start, end)
    ensures SetGeneratorAsWritten(json, newGenerator) == Success(json[..start] + newGenerator + json[end..])
  {
    ValueSearches(json, k, start, end);
  }

  /** The three searches land on the key, the opening quote and the closing quote. */
  lemma ValueSearches(json: string, k: int, start: int, end: int)
    requires FirstKeyAt(json, k) && OpensValueAt(json, k, start) && ClosesValueAt(json, start, end)
    ensures IndexOf(json, GeneratorKey) == k
    ensures IndexOfChar(json, '"', k + |GeneratorKey|) == start - 1
    ensures IndexOfChar(json, '"', start) == end
  {
    KeySearch(json, k);
    QuoteSearch(json, k + |GeneratorKey|, start - 1);
    QuoteSearch(json, start, end);
  }

  /** The pieces of a splice sit where they were put. */
  lemma SpliceShape(json: string, newGenerator: string, start: int, end: int)
    requires 0 <= start <= end <= |json|
    ensures var out := json[..start] + newGenerator + json[end..];
      && |out| == |json| - (end - start) + |newGenerator|
      && out[..start] == json[..start]
      && out[start..start + |newGenerator|] == newGenerator
      && out[start + |newGenerator|..] == json[end..]
  {
    var out := json[..start] + newGenerator + json[end..];
    assert out[..start] == json[..start];
    assert out[start..start + |newGenerator|] == newGenerator;
    assert out[start + |newGenerator|..] == json[end..];
  }

  /**
    The intended version never touches the text up to the end of the first key;
    the version as written does not keep this promise (see
    `SetGeneratorAsWrittenDropsBrace`).
  */
  lemma SetGeneratorKeepsKey(json: string, newGenerator: string, k: int)
    requires FirstKeyAt(json, k) && SetGenerator(json, newGenerator).Success?
    ensures var out := SetGenerator(json, newGenerator).value;
      && k + |GeneratorKey| <= |out|
      && out[..k + |GeneratorKey|] == json[..k + |GeneratorKey|]
  {
    KeySearch(json, k);
    var open := IndexOfChar(json, '"', k + |GeneratorKey|);
    if open >= 0 {
      var start := open + 1;
      var end := IndexOfChar(json, '"', start);
      assert SetGenerator(json, newGenerator).value == json[..start] + newGenerator + json[end..];
      SplicePrefix(json, newGenerator, start, end, k + |GeneratorKey|);
    }
  }

  /** A splice at `start` keeps every prefix of the text that ends by `start`. */
  lemma SplicePrefix(json: string, newGenerator: string, start: int, end: int, n: int)
    requires 0 <= n <= start <= end <= |json|
    ensures var out := json[..start] + newGenerator + json[end..];
      n <= |out| && out[..n] == json[..n]
  {
    var out := json[..start] + newGenerator + json[end..];
    assert out[..start] == json[..start];
    assert out[..n] == out[..start][..n];
  }

  /**
    Both versions throw on the same texts: when no quote follows the key the
    code as written still finds a "closing" quote, the key's own first one.
  */
  lemma SetGeneratorFailsAlike(json: string, newGenerator: string)
    ensures SetGeneratorAsWritten(json, newGenerator).Failure? <==> SetGenerator(json, newGenerator).Failure?
  {
    var k := IndexOf(json, GeneratorKey);
    if k >= 0 {
      assert json[k..k + |GeneratorKey|][0] == json[k];
    }
  }

  /** With the key and an opening quote but no closing one, both versions throw. */
  lemma SetGeneratorUnterminated(json: string, newGenerator: string, k: int, start: int)
    requires FirstKeyAt(json, k) && OpensValueAt(json, k, start) && NoQuoteFrom(json, start)
    ensures SetGenerator(json, newGenerator) == Failure(AppendOutOfRange)
    ensures SetGeneratorAsWritten(json, newGenerator) == Failure(AppendOutOfRange)
  {
    KeySearch(json, k);
    QuoteSearch(json, k + |GeneratorKey|, start - 1);
  }

  /** With the key but no quote after it, the intended version leaves the text as it is. */
  lemma SetGeneratorWithoutValue(json: string, newGenerator: string, k: int)
    requires FirstKeyAt(json, k) && NoQuoteFrom(json, k + |GeneratorKey|)
    ensures SetGenerator(json, newGenerator) == Success(json)
  {
    KeySearch(json, k);
    NoQuoteSearch(json, k + |GeneratorKey|);
  }

  /**
    With the key but no quote after it, the version as written keeps only
    `newGenerator` and the text from the first quote of the whole document on.
  */
  lemma SetGeneratorAsWrittenWithoutValue(json: string, newGenerator: string, k: int, f: int)
    requires FirstKeyAt(json, k) && NoQuoteFrom(json, k + |GeneratorKey|) && ClosesValueAt(json, 0, f)
    ensures SetGeneratorAsWritten(json, newGenerator) == Success(newGenerator + json[f..])
  {
    KeySearch(json, k);
    NoQuoteSearch(json, k + |GeneratorKey|);
    QuoteSearch(json, 0, f);
    assert SetGeneratorAsWritten(json, newGenerator) == Success(json[..0] + newGenerator + json[f..]);
    assert json[..0] + newGenerator + json[f..] == newGenerator + json[f..];
  }

  /** Keeping the first `n` characters keeps every occurrence of the key that ends within them. */
  lemma OccursInKeptPrefix(json: string, out: string, n: int, i: int)
    requires 0 <= n <= |json| && n <= |out| && out[..n] == json[..n]
    requires 0 <= i && i + |GeneratorKey| <= n
    ensures Occurs(out, GeneratorKey, i) <==> Occurs(json, GeneratorKey, i)
  {
    assert out[i..i + |GeneratorKey|] == out[..n][i..i + |GeneratorKey|];
    assert json[i..i + |GeneratorKey|] == json[..n][i..i + |GeneratorKey|];
  }

  /** A splice from `start` on keeps the first key occurrence before it. */
  lemma SpliceKeepsKey(json: string, out: string, k: int, start: int)
    requires FirstKeyAt(json, k) && k + |GeneratorKey| < start <= |json|
    requires start <= |out| && out[..start] == json[..start]
    ensures FirstKeyAt(out, k)
  {
    OccursInKeptPrefix(json, out, start, k);
    forall i | 0 <= i < k
      ensures !Occurs(out, GeneratorKey, i)
    {
      OccursInKeptPrefix(json, out, start, i);
    }
  }

  /** A splice from `start` on keeps the value's opening quote at `start - 1`. */
  lemma SpliceKeepsOpening(json: string, out: string, k: int, start: int)
    requires OpensValueAt(json, k, start)
    requires start <= |out| && out[..start] == json[..start]
    ensures OpensValueAt(out, k, start)
  {
    forall i | 0 <= i < start
      ensures out[i] == json[i]
    {
      assert out[i] == out[..start][i];
    }
  }

  /** After splicing in a value without quotes, the closing quote follows it directly. */
  lemma SpliceClosesAfterValue(json: string, newGenerator: string, start: int, end: int)
    requires ClosesValueAt(json, start, end) && '"' !in newGenerator
    ensures ClosesValueAt(json[..start] + newGenerator + json[end..], start, start + |newGenerator|)
  {
    var out := json[..start] + newGenerator + json[end..];
    forall i | start <= i < start + |newGenerator|
      ensures out[i] != '"'
    {
      assert out[i] == newGenerator[i - start];
    }
    assert out[start + |newGenerator|] == json[end];
  }

  /** A splice of a value without quotes leaves a text the rewrite finds laid out the same way. */
  lemma SpliceKeepsLayout(json: string, newGenerator: string, k: int, start: int, end: int)
    requires FirstKeyAt(json, k) && OpensValueAt(json, k, start) && ClosesValueAt(json, start, end)
    requires '"' !in newGenerator
    ensures var out := json[..start] + newGenerator + json[end..];
      && FirstKeyAt(out, k) && OpensValueAt(out, k, start)
      && ClosesValueAt(out, start, start + |newGenerator|)
      && out[..start] + newGenerator + out[start + |newGenerator|..] == out
  {
    var out := json[..start] + newGenerator + json[end..];
    SpliceShape(json, newGenerator, start, end);
    SpliceKeepsKey(json, out, k, start);
    SpliceKeepsOpening(json, out, k, start);
    SpliceClosesAfterValue(json, newGenerator, start, end);
  }

  /**
    The text the version as written leaves when no quote follows the key,
    `newGenerator` and then the text from the first quote on, still has the
    key first, no quote after it, and its first quote right after `newGenerator`.
  */
  lemma PrependKeepsLayout(json: string, newGenerator: string, k: int, f: int)
    requires FirstKeyAt(json, k) && NoQuoteFrom(json, k + |GeneratorKey|) && ClosesValueAt(json, 0, f)
    requires '"' !in newGenerator
    ensures f <= k
    ensures var out := newGenerator + json[f..];
      var g := |newGenerator|;
      && FirstKeyAt(out, g + k - f)
      && NoQuoteFrom(out, g + k - f + |GeneratorKey|)
      && ClosesValueAt(out, 0, g)
      && out[g..] == json[f..]
  {
    PrependKeepsKey(json, newGenerator, k, f);
    PrependKeepsQuotes(json, newGenerator, k, f);
  }

  /** The key stays the first one, shifted by the length difference of the two heads. */
  lemma PrependKeepsKey(json: string, newGenerator: string, k: int, f: int)
    requires FirstKeyAt(json, k) && ClosesValueAt(json, 0, f)
    requires '"' !in newGenerator
    ensures f <= k
    ensures FirstKeyAt(newGenerator + json[f..], |newGenerator| + k - f)
  {
    assert json[k..k + |GeneratorKey|][0] == json[k];
    var out := newGenerator + json[f..];
    var g := |newGenerator|;
    assert out[g..] == json[f..];
    assert out[g + k - f..g + k - f + |GeneratorKey|] == json[k..k + |GeneratorKey|];
    forall i | 0 <= i < g + k - f
      ensures !Occurs(out, GeneratorKey, i)
    {
      PrependNoEarlierKey(json, newGenerator, k, f, i);
    }
  }

  /** No key starts in the new head (it holds no quote) or before the shifted key. */
  lemma PrependNoEarlierKey(json: string, newGenerator: string, k: int, f: int, i: int)
    requires FirstKeyAt(json, k) && 0 <= f <= k
    requires '"' !in newGenerator
    requires 0 <= i < |newGenerator| + k - f
    ensures !Occurs(newGenerator + json[f..], GeneratorKey, i)
  {
    var out := newGenerator + json[f..];
    var g := |newGenerator|;
    if i < g {
      assert out[i] == newGenerator[i];
      if i + |GeneratorKey| <= |out| {
        assert out[i..i + |GeneratorKey|][0] == out[i];
      }
    } else {
      var j := f + i - g;
      assert !Occurs(json, GeneratorKey, j);
      if i + |GeneratorKey| <= |out| {
        assert out[i..i + |GeneratorKey|] == json[j..j + |GeneratorKey|];
      }
    }
  }

  /** No quote follows the shifted key, and the first quote comes right after the new head. */
  lemma PrependKeepsQuotes(json: string, newGenerator: string, k: int, f: int)
    requires NoQuoteFrom(json, k + |GeneratorKey|) && ClosesValueAt(json, 0, f) && f <= k
    requires '"' !in newGenerator
    ensures var out := newGenerator + json[f..];
      var g := |newGenerator|;
      && NoQuoteFrom(out, g + k - f + |GeneratorKey|)
      && ClosesValueAt(out, 0, g)
      && out[g..] == json[f..]
  {
    var out := newGenerator + json[f..];
    var g := |newGenerator|;
    forall i | g + k - f + |GeneratorKey| <= i < |out|
      ensures out[i] != '"'
    {
      assert out[i] == json[i - g + f];
    }
    forall i | 0 <= i < g
      ensures out[i] != '"'
    {
      assert out[i] == newGenerator[i];
    }
    assert out[g] == json[f];
    assert out[g..] == json[f..];
  }

  /**
    Normalising twice is normalising once, for a replacement without quotes
    (the test normalises both the exported and the stored text with "").
  */
  lemma {:induction false} SetGeneratorIdempotent(json: string, newGenerator: string)
    requires '"' !in newGenerator
    requires SetGenerator(json, newGenerator).Success?
    ensures var once := SetGenerator(json, newGenerator).value;
      SetGenerator(once, newGenerator) == Success(once)
  {
    var k := IndexOf(json, GeneratorKey);
    if k >= 0 {
      assert FirstKeyAt(json, k);
      var open := IndexOfChar(json, '"', k + |GeneratorKey|);
      if open >= 0 {
        var start := open + 1;
        var end := IndexOfChar(json, '"', start);
        assert OpensValueAt(json, k, start);
        if end < 0 {
          SetGeneratorUnterminated(json, newGenerator, k, start);
        } else {
          assert ClosesValueAt(json, start, end);
          SetGeneratorSplices(json, newGenerator, k, start, end);
          var out := json[..start] + newGenerator + json[end..];
          SpliceKeepsLayout(json, newGenerator, k, start, end);
          SetGeneratorSplices(out, newGenerator, k, start, start + |newGenerator|);
        }
      }
    }
  }

  /** A second pass of the code as written over a text it spliced rebuilds that text. */
  lemma AsWrittenSpliceIsFixed(json: string, newGenerator: string, k: int, start: int, end: int)
    requires FirstKeyAt(json, k) && OpensValueAt(json, k, start) && ClosesValueAt(json, start, end)
    requires '"' !in newGenerator
    ensures var out := json[..start] + newGenerator + json[end..];
      SetGeneratorAsWritten(out, newGenerator) == Success(out)
  {
    SpliceKeepsLayout(json, newGenerator, k, start, end);
    var out := json[..start] + newGenerator + json[end..];
    SetGeneratorAsWrittenSplices(out, newGenerator, k, start, start + |newGenerator|);
  }

  /** A second pass of the code as written over the text it left when no quote followed the key rebuilds that text. */
  lemma AsWrittenPrependIsFixed(json: string, newGenerator: string, k: int, f: int)
    requires FirstKeyAt(json, k) && NoQuoteFrom(json, k + |GeneratorKey|) && ClosesValueAt(json, 0, f)
    requires '"' !in newGenerator
    ensures var out := newGenerator + json[f..];
      SetGeneratorAsWritten(out, newGenerator) == Success(out)
  {
    PrependKeepsLayout(json, newGenerator, k, f);
    var out := newGenerator + json[f..];
    var g := |newGenerator|;
    SetGeneratorAsWrittenWithoutValue(out, newGenerator, g + k - f, g);
  }

  /**
    The code as written is idempotent too: the text it leaves when no quote
    follows the key is laid out so that a second pass rebuilds it unchanged.
  */
  lemma {:induction false} SetGeneratorAsWrittenIdempotent(json: string, newGenerator: string)
    requires '"' !in newGenerator
    requires SetGeneratorAsWritten(json, newGenerator).Success?
    ensures var once := SetGeneratorAsWritten(json, newGenerator).value;
      SetGeneratorAsWritten(once, newGenerator) == Success(once)
  {
    var k := IndexOf(json, GeneratorKey);
    if k >= 0 {
      assert FirstKeyAt(json, k);
      var open := IndexOfChar(json, '"', k + |GeneratorKey|);
      if open >= 0 {
        var start := open + 1;
        var end := IndexOfChar(json, '"', start);
        assert OpensValueAt(json, k, start);
        if end < 0 {
          SetGeneratorUnterminated(json, newGenerator, k, start);
        } else {
          assert ClosesValueAt(json, start, end);
          SetGeneratorAsWrittenSplices(json, newGenerator, k, start, end);
          AsWrittenSpliceIsFixed(json, newGenerator, k, start, end);
        }
      } else {
        assert NoQuoteFrom(json, k + |GeneratorKey|);
        assert json[k..k + |GeneratorKey|][0] == json[k];
        var f := IndexOfChar(json, '"', 0);
        assert ClosesValueAt(json, 0, f);
        SetGeneratorAsWrittenWithoutValue(json, newGenerator, k, f);
        AsWrittenPrependIsFixed(json, newGenerator, k, f);
      }
    }
  }

  /** `{"generator":1,"v":"x"}`: a generator value that is a number, followed by another string. */
  const NumberThenString: string := "{" + GeneratorKey + ":1,\"v\":\"x\"}"

  /** Its key starts right after the opening brace. */
  lemma NumberThenStringKey()
    ensures FirstKeyAt(NumberThenString, 1)
  {
    var json := NumberThenString;
    assert json[1..12] == GeneratorKey;
    assert json[0..11][0] == '{' != GeneratorKey[0];
  }

  /** The first quote after the key opens `"v"`, whose closing quote follows one character later. */
  lemma NumberThenStringQuotes()
    ensures OpensValueAt(NumberThenString, 1, 16) && ClosesValueAt(NumberThenString, 16, 17)
  {
  }

  /** Splicing the empty value into `"v"` leaves `""` in its place. */
  lemma NumberThenStringSplice()
    ensures NumberThenString[..16] + "" + NumberThenString[17..] == "{\"generator\":1,\"\":\"x\"}"
  {
  }

  /**
    Before a key with no quoted value the code as written drops the first
    character, whatever it is, while the intended version keeps the text.
  */
  lemma AsWrittenDropsFirstChar(c: char)
    requires c != '"'
    ensures var json := [c] + GeneratorKey + ":1}";
      && SetGeneratorAsWritten(json, "") == Success(GeneratorKey + ":1}")
      && SetGenerator(json, "") == Success(json)
  {
    var json := [c] + GeneratorKey + ":1}";
    FirstCharLayout(c);
    SetGeneratorAsWrittenWithoutValue(json, "", 1, 1);
    SetGeneratorWithoutValue(json, "", 1);
    assert "" + json[1..] == GeneratorKey + ":1}";
  }

  /** Where the searches land in `<c>"generator":1}`. */
  lemma FirstCharLayout(c: char)
    requires c != '"'
    ensures var json := [c] + GeneratorKey + ":1}";
      && FirstKeyAt(json, 1) && NoQuoteFrom(json, 1 + |GeneratorKey|) && ClosesValueAt(json, 0, 1)
      && json[1..] == GeneratorKey + ":1}"
  {
    var json := [c] + GeneratorKey + ":1}";
    assert json[1..12] == GeneratorKey;
    assert json[0..11][0] == c;
    assert json[12..] == ":1}";
    assert json[1..] == GeneratorKey + ":1}";
  }

  /**
    The defect can hide a difference from the test's comparison: `{"generator":1}`
    and `["generator":1}` normalise to the same text as written, but stay
    different under the intended version.
  */
  lemma SetGeneratorAsWrittenMasksDifference()
    ensures SetGeneratorAsWritten(['{'] + GeneratorKey + ":1}", "") == SetGeneratorAsWritten(['['] + GeneratorKey + ":1}", "")
    ensures SetGenerator(['{'] + GeneratorKey + ":1}", "") != SetGenerator(['['] + GeneratorKey + ":1}", "")
  {
    AsWrittenDropsFirstChar('{');
    AsWrittenDropsFirstChar('[');
    assert (['{'] + GeneratorKey + ":1}")[0] != (['['] + GeneratorKey + ":1}")[0];
  }

  /**
    Both versions take the first quote after the key for the value's opening
    quote, so a value that is not a string gives way to the next string: on
    `{"generator":1,"v":"x"}` the key `"v"` is blanked out.
  */
  lemma SetGeneratorOverwritesNextString()
    ensures SetGenerator(NumberThenString, "") == Success("{\"generator\":1,\"\":\"x\"}")
    ensures SetGeneratorAsWritten(NumberThenString, "") == Success("{\"generator\":1,\"\":\"x\"}")
  {
    NumberThenStringKey();
    NumberThenStringQuotes();
    NumberThenStringSplice();
    SetGeneratorSplices(NumberThenString, "", 1, 16, 17);
    SetGeneratorAsWrittenSplices(NumberThenString, "", 1, 16, 17);
  }

  /**
    The version as written departs from the intended one on `{"generator":1}`:
    it drops the opening brace instead of leaving the text alone.
  */
  lemma SetGeneratorAsWrittenDropsBrace()
    ensures SetGeneratorAsWritten("{\"generator\":1}", "") == Success("\"generator\":1}")
    ensures SetGenerator("{\"generator\":1}", "") == Success("{\"generator\":1}")
  {
    var json := "{\"generator\":1}";
    assert json[1..12] == GeneratorKey;
    assert Occurs(json, GeneratorKey, 1);
    assert json[0..11][0] == '{' != GeneratorKey[0];
    assert !Occurs(json, GeneratorKey, 0);
    assert FirstKeyAt(json, 1);
    assert NoQuoteFrom(json, 12);
    assert ClosesValueAt(json, 0, 1);
    SetGeneratorAsWrittenWithoutValue(json, "", 1, 1);
    SetGeneratorWithoutValue(json, "", 1);
    assert "" + json[1..] == "\"generator\":1}";
  }
}

=== FILE: hex.dfy ===
/**
  .NET's `"X"` format for a 32-bit `int`: upper-case hexadecimal of the value's
  two's-complement bit pattern, without leading zeros ("0" for zero).
*/
module HexFormat {

  /** C#'s `int`. */
  newtype int32 = x: int | -0x8000_0000 <= x < 0x8000_0000

  const TwoTo32: nat := 0x1_0000_0000

  predicate IsHexDigit(c: char) {
    '0' <= c <= '9' || 'A' <= c <= 'F'
  }

  predicate IsHexString(s: string) {
    forall i :: 0 <= i < |s| ==> IsHexDigit(s[i])
  }

  function DigitValue(c: char): (d: nat)
    requires IsHexDigit(c)
    ensures d < 16
  {
    if c <= '9' then (c - '0') as nat else (c - 'A') as nat + 10
  }

  /** The upper-case digit for `d`. */
  function HexDigit(d: nat): (c: char)
    requires d < 16
    ensures IsHexDigit(c) && DigitValue(c) == d
    ensures c == '0' <==> d == 0
  {
    if d < 10 then ('0' as int + d) as char else ('A' as int + d - 10) as char
  }

  /** The value of a string of hex digits, most significant first. */
  function ParseHex(s: string): nat
    requires IsHexString(s)
  {
    if |s| == 0 then 0
    else ParseHex(s[..|s| - 1]) * 16 + DigitValue(s[|s| - 1])
  }

  /** The minimal upper-case hex digits of `n`. */
  function HexOfNat(n: nat): (s: string)
    ensures 1 <= |s| && IsHexString(s)
    ensures s[0] == '0' ==> n == 0 && |s| == 1
  {
    if n < 16 then [HexDigit(n)]
    else HexOfNat(n / 16) + [HexDigit(n % 16)]
  }

  /** Reading the digits back gives the number. */
  lemma {:induction false} ParseHexOfNat(n: nat)
    ensures ParseHex(HexOfNat(n)) == n
  {
    var s := HexOfNat(n);
    if n < 16 {
      assert s[..0] == [];
    } else {
      ParseHexOfNat(n / 16);
      assert s[..|s| - 1] == HexOfNat(n / 16);
    }
  }

  function Pow16(k: nat): (p: nat)
    ensures p >= 1
  {
    if k == 0 then 1 else 16 * Pow16(k - 1)
  }

  lemma Pow16Eight()
    ensures Pow16(8) == TwoTo32
  {
    assert Pow16(2) == 256;
    assert Pow16(4) == 16 * (16 * Pow16(2));
    assert Pow16(6) == 16 * (16 * Pow16(4));
    assert Pow16(8) == 16 * (16 * Pow16(6));
  }

  /** Numbers below `16^k` take at most `k` digits. */
  lemma {:induction false} HexOfNatLength(n: nat, k: nat)
    requires n < Pow16(k) && k >= 1
    ensures |HexOfNat(n)| <= k
    decreases k
  {
    if n >= 16 {
      assert Pow16(1) == 16;
      assert k >= 2;
      assert n / 16 < Pow16(k - 1);
      HexOfNatLength(n / 16, k - 1);
    }
  }

  /** `h.ToString("X")`: the digits of the two's-complement pattern of `h`. */
  function FormatX(h: int32): (s: string)
    ensures 1 <= |s| <= 8 && IsHexString(s)
    ensures ParseHex(s) == (h as int) % TwoTo32
    ensures s[0] == '0' ==> s == "0"
    ensures 0 <= h ==> ParseHex(s) == h as int
    ensures h < 0 ==> ParseHex(s) == h as int + TwoTo32
  {
    var n := (h as int) % TwoTo32;
    HexOfWord(n);
    HexOfNat(n)
  }

  /** A 32-bit word takes one to eight digits, which read back as the word. */
  lemma HexOfWord(n: nat)
    requires n < TwoTo32
    ensures |HexOfNat(n)| <= 8 && ParseHex(HexOfNat(n)) == n
  {
    Pow16Eight();
    HexOfNatLength(n, 8);
    ParseHexOfNat(n);
  }

  /** Distinct hash codes format to distinct suffixes. */
  lemma FormatXInjective(a: int32, b: int32)
    requires FormatX(a) == FormatX(b)
    ensures a == b
  {
  }
}

=== FILE: sample_set.dfy ===
/**
  The `SampleSet` asset of the test framework: an ordered list of sample-model
  entries, each with an `active` flag, a display name and a path relative to a
  base location, plus the settings that decide which base location applies.

  The host the asset runs in (Unity's application paths, environment
  variables, `Directory.Exists`, `Path.Combine`, `string.GetHashCode`) is a
  parameter: the model keeps the decisions and treats those calls as oracles.
*/
module SampleSets {
  import opened Wrappers
  import opened Selection
  import opened Strings
  import opened HexFormat

  /** `SampleSetItem`: what a listing yields. */
  datatype Item = Item(name: string, path: string)

  /** `SampleSetItemEntry`: one stored entry of the list. */
  datatype Entry = Entry(active: bool, item: Item)

  /**
    The serialized fields of a sample set. Unity serialises string fields as
    empty strings, so stored entries and settings never hold `null`; only the
    nulls of a default `SampleSetItem` and of a missing asset path are
    modelled, as "" and as `None`.
  */
  datatype SampleSet = SampleSet(
    baseLocalPath: string,
    assetRelativePath: string,
    streamingAssetsPath: string,
    baseUrlWeb: string,
    baseUrlLocal: string,
    items: seq<Entry>)

  const DefaultStreamingAssetsPath: string := "glTF-Sample-Models"
  const DefaultBaseUrlWeb: string := "https://raw.githubusercontent.com/KhronosGroup/glTF-Sample-Models/master/2.0/"
  const DefaultBaseUrlLocal: string := "http://localhost:8080/glTF-Sample-Models/2.0/"

  /** What `remoteUri` falls back to when no web URL is configured. */
  const UnsetWebPlaceholder: string := "<baseUrlWeb not set!>"

  /** `new SampleSetItem()`, with its null strings as empty ones. */
  const DefaultItem: Item := Item("", "")

  /** A freshly created asset: the field initialisers and no entries. */
  function NewSampleSet(): (s: SampleSet)
    ensures s.streamingAssetsPath == "glTF-Sample-Models" && s.baseLocalPath == "" && s.items == []
    ensures s.baseUrlLocal != "" && s.baseUrlWeb != ""
  {
    SampleSet("", "", DefaultStreamingAssetsPath, DefaultBaseUrlWeb, DefaultBaseUrlLocal, [])
  }

  /**
    The environment a sample set resolves its locations in.
    - `streamingAssetsRoot`: `Application.streamingAssetsPath`
    - `assetDirVariable`: the `GLTF_TEST_ASSET_DIR` environment variable ("" when unset)
    - `repositoryRoot`: the third ancestor of `Application.dataPath`, if it has one
    - `inEditor`: whether the code is compiled for the Unity editor
    - `dirExists`: `Directory.Exists`
    - `combine`: `Path.Combine`
  */
  datatype Host = Host(
    streamingAssetsRoot: string,
    assetDirVariable: string,
    repositoryRoot: Option<string>,
    inEditor: bool,
    dirExists: string -> bool,
    combine: (string, string) -> string)

  // ---------------------------------------------------------------------------
  // Location resolution

  /** The repository's "assets" folder: the environment override first, then `<root>/assets`. */
  function GetAssetsPath(host: Host): (r: Option<string>)
    ensures r.Some? ==> host.dirExists(r.value)
    ensures host.assetDirVariable != "" && host.dirExists(host.assetDirVariable) ==>
      r == Some(host.assetDirVariable)
    ensures !(host.assetDirVariable != "" && host.dirExists(host.assetDirVariable)) ==>
      (r.Some? <==> host.repositoryRoot.Some? && host.dirExists(host.combine(host.repositoryRoot.value, "assets")))
      && (r.Some? ==> r.value == host.combine(host.repositoryRoot.value, "assets"))
  {
    if host.assetDirVariable != "" && host.dirExists(host.assetDirVariable) then
      Some(host.assetDirVariable)
    else if host.repositoryRoot.Some? && host.dirExists(host.combine(host.repositoryRoot.value, "assets")) then
      Some(host.combine(host.repositoryRoot.value, "assets"))
    else
      None
  }

  /** `assetAbsolutePath`: `assetRelativePath` below the assets folder, when both are known and it exists. */
  function AssetAbsolutePath(s: SampleSet, host: Host): (r: Option<string>)
    ensures r.Some? ==>
      && host.dirExists(r.value) && s.assetRelativePath != "" && GetAssetsPath(host).Some?
      && r.value == host.combine(GetAssetsPath(host).value, s.assetRelativePath)
    ensures r.None? <==>
      || s.assetRelativePath == "" || GetAssetsPath(host).None?
      || !host.dirExists(host.combine(GetAssetsPath(host).value, s.assetRelativePath))
  {
    if s.assetRelativePath != "" then
      match GetAssetsPath(host)
      case None => None
      case Some(assetsPath) =>
        var path := host.combine(assetsPath, s.assetRelativePath);
        if host.dirExists(path) then Some(path) else None
    else
      None
  }

  /** `GetSourcePath`: the directory within "assets" if there is one, else `baseLocalPath`. */
  function GetSourcePath(s: SampleSet, host: Host): (r: string)
    ensures r == s.baseLocalPath || (r != "" && host.dirExists(r) && AssetAbsolutePath(s, host) == Some(r))
    ensures AssetAbsolutePath(s, host).Some? && AssetAbsolutePath(s, host).value != "" ==>
      r == AssetAbsolutePath(s, host).value
  {
    match AssetAbsolutePath(s, host)
    case Some(path) =>
      if path != "" && host.dirExists(path) then path else s.baseLocalPath
    case None => s.baseLocalPath
  }

  /**
    `localFilePath`, a fixed priority chain:
    1. `streamingAssetsPath` below the StreamingAssets folder, if set and existing;
    2. `assetRelativePath` below the repository's assets folder, if set, known and existing;
    3. `baseLocalPath`.
  */
  function LocalFilePath(s: SampleSet, host: Host): (r: string)
    ensures var streaming := host.combine(host.streamingAssetsRoot, s.streamingAssetsPath);
      var assets := GetAssetsPath(host);
      var inAssets := if assets.Some? then host.combine(assets.value, s.assetRelativePath) else "";
      var useStreaming := s.streamingAssetsPath != "" && host.dirExists(streaming);
      var useAssets := s.assetRelativePath != "" && assets.Some? && inAssets != "" && host.dirExists(inAssets);
      && (useStreaming ==> r == streaming)
      && (!useStreaming && useAssets ==> r == inAssets)
      && (!useStreaming && !useAssets ==> r == s.baseLocalPath)
  {
    if s.streamingAssetsPath != "" && host.dirExists(host.combine(host.streamingAssetsRoot, s.streamingAssetsPath)) then
      host.combine(host.streamingAssetsRoot, s.streamingAssetsPath)
    else
      GetSourcePath(s, host)
  }

  /** Whatever `localFilePath` picks is an existing directory, unless it fell back to `baseLocalPath`. */
  lemma LocalFilePathExistsOrFallsBack(s: SampleSet, host: Host)
    ensures LocalFilePath(s, host) == s.baseLocalPath || host.dirExists(LocalFilePath(s, host))
  {
  }

  /** `remoteUri`: the local server in the editor when configured, else the web URL, else a placeholder. */
  function RemoteUri(s: SampleSet, host: Host): (r: string)
    ensures r != ""
    ensures host.inEditor && s.baseUrlLocal != "" ==> r == s.baseUrlLocal
    ensures !(host.inEditor && s.baseUrlLocal != "") && s.baseUrlWeb != "" ==> r == s.baseUrlWeb
    ensures !(host.inEditor && s.baseUrlLocal != "") && s.baseUrlWeb == "" ==> r == UnsetWebPlaceholder
  {
    var uriPrefix := if s.baseUrlWeb == "" then UnsetWebPlaceholder else s.baseUrlWeb;
    if host.inEditor && s.baseUrlLocal != "" then s.baseUrlLocal else uriPrefix
  }

  /** The prefix the listings use: `local ? localFilePath : remoteUri`. */
  function Prefix(s: SampleSet, host: Host, local: bool): (r: string)
    ensures local ==> r == s.baseLocalPath || host.dirExists(r)
    ensures !local ==> r != ""
  {
    if local then LocalFilePath(s, host) else RemoteUri(s, host)
  }

  // ---------------------------------------------------------------------------
  // Listings

  predicate IsActive(e: Entry) {
    e.active
  }

  /** The positions of the active entries, in list order. */
  function ActiveIndices(items: seq<Entry>): (idx: seq<nat>)
    ensures IsSelection(items, IsActive, idx)
  {
    SelectIndices(items, IsActive)
  }

  /** `itemCount` counts every entry, active or not: at least as many as are listed, and exactly as many when all are active. */
  function ItemCount(s: SampleSet): (r: nat)
    ensures r == |s.items|
    ensures |ActiveIndices(s.items)| <= r
    ensures |ActiveIndices(s.items)| == r <==> forall i :: 0 <= i < |s.items| ==> s.items[i].active
  {
    SelectIndicesLength(s.items, IsActive);
    |s.items|
  }

  /** The name `GetItems` gives an item: its name, a dash and the hex hash code of its path. */
  function HashedItem(it: Item, hash: string -> int32): Item {
    Item(it.name + "-" + FormatX(hash(it.path)), it.path)
  }

  /** `GetItems`: one item per active entry, in order, its path kept and its name made unique by the path's hash. */
  function GetItems(s: SampleSet, hash: string -> int32): (r: seq<Item>)
    ensures var idx := ActiveIndices(s.items);
      && |r| == |idx|
      && forall k :: 0 <= k < |r| ==>
        && r[k].path == s.items[idx[k]].item.path
        && r[k].name == s.items[idx[k]].item.name + "-" + FormatX(hash(r[k].path))
  {
    MapSelected(s.items, IsActive, (e: Entry) => HashedItem(e.item, hash))
  }

  /** The suffix `GetItems` appends decodes back to the path's hash code, read as 32 unsigned bits. */
  lemma GetItemsSuffixIsHash(s: SampleSet, hash: string -> int32, k: nat)
    requires k < |GetItems(s, hash)|
    ensures var it := GetItems(s, hash)[k];
      var entryName := s.items[ActiveIndices(s.items)[k]].item.name;
      var suffix := it.name[|entryName| + 1..];
      && |entryName| + 1 < |it.name|
      && it.name[..|entryName|] == entryName && it.name[|entryName|] == '-'
      && IsHexString(suffix) && ParseHex(suffix) == (hash(it.path) as int) % TwoTo32
  {
    var it := GetItems(s, hash)[k];
    var entryName := s.items[ActiveIndices(s.items)[k]].item.name;
    var hex := FormatX(hash(it.path));
    assert it.name == entryName + "-" + hex;
    assert it.name[|entryName| + 1..] == hex;
  }

  /** An item of the prefixed listings: the name kept, the path put below `prefix`. */
  function PrefixedItem(prefix: string, it: Item): Item {
    Item(it.name, prefix + "/" + it.path)
  }

  /**
    `GetItemsPrefixed`: nothing when the prefix is empty, otherwise one item
    per active entry, in order, with its name and `prefix/path`.
  */
  function GetItemsPrefixed(s: SampleSet, host: Host, local: bool): (r: seq<Item>)
    ensures var prefix := Prefix(s, host, local);
      var idx := ActiveIndices(s.items);
      && (prefix == "" ==> r == [])
      && (prefix != "" ==>
        && |r| == |idx|
        && forall k :: 0 <= k < |r| ==> r[k] == Item(s.items[idx[k]].item.name, prefix + "/" + s.items[idx[k]].item.path))
  {
    var prefix := Prefix(s, host, local);
    if prefix == "" then [] else MapSelected(s.items, IsActive, (e: Entry) => PrefixedItem(prefix, e.item))
  }

  /** `GetTestItems`: its body is the one of `GetItemsPrefixed`, so it lists the same items. */
  function GetTestItems(s: SampleSet, host: Host, local: bool): (r: seq<Item>)
    ensures var prefix := Prefix(s, host, local);
      var idx := ActiveIndices(s.items);
      && (prefix == "" ==> r == [])
      && (prefix != "" ==>
        && |r| == |idx|
        && forall k :: 0 <= k < |r| ==> r[k] == Item(s.items[idx[k]].item.name, prefix + "/" + s.items[idx[k]].item.path))
  {
    GetItemsPrefixed(s, host, local)
  }

  /** A remote listing never comes out empty for lack of a prefix: it holds every active entry. */
  lemma RemoteListingIsComplete(s: SampleSet, host: Host)
    ensures var r := GetItemsPrefixed(s, host, false);
      var idx := ActiveIndices(s.items);
      && |r| == |idx|
      && forall k :: 0 <= k < |r| ==> r[k].path == RemoteUri(s, host) + "/" + s.items[idx[k]].item.path
  {
  }

  /** The outcome of `TryGetTestItem`: its return value and its `out` item. */
  datatype Lookup = Lookup(found: bool, item: Item)

  /** An entry the lookup by `name` stops at. */
  function NamedActive(name: string): Entry -> bool {
    (e: Entry) => e.active && e.item.name == name
  }

  /**
    `TryGetTestItem`: the first active entry named `itemName`; found only when
    the prefix is non-empty, with the item's path below the prefix.
  */
  function TryGetTestItem(s: SampleSet, host: Host, itemName: string, local: bool): (r: Lookup)
    ensures r.found <==>
      (exists j :: 0 <= j < |s.items| && s.items[j].active && s.items[j].item.name == itemName)
      && Prefix(s, host, local) != ""
    ensures !r.found ==> r.item == DefaultItem
    ensures r.found ==> exists j ::
      && 0 <= j < |s.items|
      && s.items[j].active && s.items[j].item.name == itemName
      && (forall l :: 0 <= l < j ==> !(s.items[l].active && s.items[l].item.name == itemName))
      && r.item == Item(itemName, Prefix(s, host, local) + "/" + s.items[j].item.path)
  {
    match FirstIndex(s.items, NamedActive(itemName))
    case None => Lookup(false, DefaultItem)
    case Some(i) =>
      var prefix := Prefix(s, host, local);
      if prefix != "" then Lookup(true, PrefixedItem(prefix, s.items[i].item))
      else Lookup(false, DefaultItem)
  }

  /**
    The lookup agrees with the listing: it succeeds exactly when `GetItemsPrefixed`
    lists an item of that name, and then yields the first such item.
  */
  lemma TryGetTestItemAgreesWithListing(s: SampleSet, host: Host, itemName: string, local: bool)
    ensures var listing := GetItemsPrefixed(s, host, local);
      var r := TryGetTestItem(s, host, itemName, local);
      && (r.found <==> exists k :: 0 <= k < |listing| && listing[k].name == itemName)
      && (r.found ==> exists k ::
            && 0 <= k < |listing| && listing[k] == r.item
            && forall l :: 0 <= l < k ==> listing[l].name != itemName)
  {
    var listing := GetItemsPrefixed(s, host, local);
    var r := TryGetTestItem(s, host, itemName, local);
    var idx := ActiveIndices(s.items);
    var prefix := Prefix(s, host, local);
    if prefix != "" {
      if exists k :: 0 <= k < |listing| && listing[k].name == itemName {
        var k :| 0 <= k < |listing| && listing[k].name == itemName;
        assert s.items[idx[k]].active && s.items[idx[k]].item.name == itemName;
      }
      match FirstIndex(s.items, NamedActive(itemName))
      case None =>
      case Some(i) =>
        assert i in idx;
        var k :| 0 <= k < |idx| && idx[k] == i;
        assert listing[k] == r.item;
        forall l | 0 <= l < k
          ensures listing[l].name != itemName
        {
          assert idx[l] < i;
          assert !NamedActive(itemName)(s.items[idx[l]]);
        }
    }
  }

  // ---------------------------------------------------------------------------
  // Editing the list

  /** `SetAllActive`: every flag becomes `active`; the count, names, paths and settings stay. */
  function SetAllActive(s: SampleSet, active: bool): (r: SampleSet)
    ensures r.(items := s.items) == s
    ensures |r.items| == |s.items|
    ensures forall i :: 0 <= i < |r.items| ==> r.items[i].active == active && r.items[i].item == s.items[i].item
  {
    s.(items := seq(|s.items|, i requires 0 <= i < |s.items| => s.items[i].(active := active)))
  }

  /** The positions `0 .. n-1`. */
  function Range(n: nat): (r: seq<nat>)
    ensures |r| == n && forall i :: 0 <= i < n ==> r[i] == i
  {
    seq(n, i requires 0 <= i => i as nat)
  }

  /** When every entry is active, every position is selected; when none is, none is. */
  lemma ActiveIndicesUniform(items: seq<Entry>, active: bool)
    requires forall i :: 0 <= i < |items| ==> items[i].active == active
    ensures ActiveIndices(items) == if active then Range(|items|) else []
  {
    var expected: seq<nat> := if active then Range(|items|) else [];
    if active {
      forall j | 0 <= j < |items|
        ensures j in expected
      {
        assert expected[j] == j;
      }
    }
    assert IsSelection(items, IsActive, expected);
    SelectionUnique(items, IsActive, ActiveIndices(items), expected);
  }

  /** After activating all, `GetItems` lists every entry in order; after deactivating all, nothing. */
  lemma SetAllActiveListing(s: SampleSet, active: bool, hash: string -> int32)
    ensures var r := GetItems(SetAllActive(s, active), hash);
      && (active ==> |r| == |s.items| && forall k :: 0 <= k < |r| ==> r[k].path == s.items[k].item.path)
      && (!active ==> r == [])
  {
    ActiveIndicesUniform(SetAllActive(s, active).items, active);
  }

  /** A file `DirectoryInfo.GetFiles` enumerates, with its `FullName`, `Name` and `Extension`. */
  datatype FileInfo = FileInfo(fullName: string, name: string, extension: string)

  /** The exception `string.Substring` throws for a start beyond the end. */
  datatype LoadError = SubstringOutOfRange

  predicate IsModelFile(f: FileInfo) {
    f.extension == ".gltf" || f.extension == ".glb"
  }

  /** `s[n..]`, total; only called where `n <= |s|` has been checked. */
  function Suffix(s: string, n: nat): string {
    if n <= |s| then s[n..] else ""
  }

  /** The entry `LoadItemsFromPath` makes of a file below a directory whose full name has `dirLength - 1` characters. */
  function ModelEntry(f: FileInfo, dirLength: nat): Entry {
    Entry(true, Item(f.name, Suffix(f.fullName, dirLength)))
  }

  /**
    `LoadItemsFromPath`: the entries become exactly the enumerated `.gltf` and
    `.glb` files, in enumeration order, active, named by file name, with the
    directory's full name and one more character (normally the separator)
    cut off the file's full name. It
    throws, leaving the set as it was, when such a file's full name is too
    short to cut. `files` is the enumeration of `localFilePath` (its search
    pattern applied by the host); `dirFullName` is that directory's full name.
  */
  function LoadItemsFromPath(s: SampleSet, dirFullName: string, files: seq<FileInfo>): (r: Result<SampleSet, LoadError>)
    ensures r.Failure? <==> exists j :: 0 <= j < |files| && IsModelFile(files[j]) && |files[j].fullName| <= |dirFullName|
    ensures r.Success? ==> r.value.(items := s.items) == s
    ensures r.Success? ==> var idx := SelectIndices(files, IsModelFile);
      && |r.value.items| == |idx|
      && forall k :: 0 <= k < |idx| ==>
        var f := files[idx[k]];
        && |dirFullName| + 1 <= |f.fullName|
        && r.value.items[k] == Entry(true, Item(f.name, f.fullName[|dirFullName| + 1..]))
  {
    var dirLength := |dirFullName| + 1;
    var idx := SelectIndices(files, IsModelFile);
    if exists k :: 0 <= k < |idx| && |files[idx[k]].fullName| < dirLength then
      Failure(SubstringOutOfRange)
    else
      Success(s.(items := MapSelected(files, IsModelFile, (f: FileInfo) => ModelEntry(f, dirLength))))
  }

  /** A full name that starts with the directory's is the directory, one character (the separator, normally) and the rest. */
  lemma SplitBelowDirectory(fullName: string, dirFullName: string)
    requires |dirFullName| < |fullName| && fullName[..|dirFullName|] == dirFullName
    ensures fullName == dirFullName + [fullName[|dirFullName|]] + fullName[|dirFullName| + 1..]
  {
    var n := |dirFullName|;
    assert fullName == fullName[..n] + [fullName[n]] + fullName[n + 1..];
  }

  /** For files below the directory, loading succeeds and each path is the file's name relative to it. */
  lemma LoadedPathsAreRelative(s: SampleSet, dirFullName: string, files: seq<FileInfo>)
    requires forall j :: 0 <= j < |files| ==>
      |dirFullName| < |files[j].fullName| && files[j].fullName[..|dirFullName|] == dirFullName
    ensures var r := LoadItemsFromPath(s, dirFullName, files);
      && r.Success?
      && ItemCount(r.value) == |SelectIndices(files, IsModelFile)|
      && forall k :: 0 <= k < ItemCount(r.value) ==>
        var f := files[SelectIndices(files, IsModelFile)[k]];
        f.fullName == dirFullName + [f.fullName[|dirFullName|]] + r.value.items[k].item.path
  {
    var r := LoadItemsFromPath(s, dirFullName, files);
    assert r.Success?;
    var idx := SelectIndices(files, IsModelFile);
    var items := r.value.items;
    assert |items| == |idx|;
    forall k | 0 <= k < |items|
      ensures var f := files[idx[k]];
        f.fullName == dirFullName + [f.fullName[|dirFullName|]] + items[k].item.path
    {
      var f := files[idx[k]];
      assert items[k].item.path == f.fullName[|dirFullName| + 1..];
      SplitBelowDirectory(f.fullName, dirFullName);
    }
  }

  /** Everything loaded is active, so `GetItems` then lists every loaded file. */
  lemma LoadedItemsAreListed(s: SampleSet, dirFullName: string, files: seq<FileInfo>, hash: string -> int32)
    requires LoadItemsFromPath(s, dirFullName, files).Success?
    ensures var loaded := LoadItemsFromPath(s, dirFullName, files).value;
      |GetItems(loaded, hash)| == ItemCount(loaded) == |SelectIndices(files, IsModelFile)|
  {
    var loaded := LoadItemsFromPath(s, dirFullName, files).value;
    ActiveIndicesUniform(loaded.items, true);
  }

  // ---------------------------------------------------------------------------
  // List file name

  const SampleModelsInfix: string := "-Sample-Models-"
  const SampleModelsSuffix: string := "-Sample-Models"

  /** The name `CreateListFile` gives the list: infixes become "_", then remaining suffixes vanish. */
  function ListFileName(name: string): (r: string)
    ensures '-' !in name ==> r == name
  {
    assert SampleModelsInfix[0] == '-' && SampleModelsSuffix[0] == '-';
    ReplaceAll(ReplaceAll(name, SampleModelsInfix, "_"), SampleModelsSuffix, "")
  }

  /** `<a>-Sample-Models-<b>` becomes `<a>_<b>` when neither part holds a dash. */
  lemma ListFileNameOfVariant(a: string, b: string)
    requires '-' !in a && '-' !in b
    ensures ListFileName(a + SampleModelsInfix + b) == a + "_" + b
  {
    assert a + SampleModelsInfix + b == a + (SampleModelsInfix + b);
    ReplaceAllKeepsPrefix(a, SampleModelsInfix + b, SampleModelsInfix, "_");
    ReplaceAllLeading(b, SampleModelsInfix, "_");
    ReplaceAllWithoutPattern(b, SampleModelsInfix, "_");
    var step := a + "_" + b;
    assert ReplaceAll(a + SampleModelsInfix + b, SampleModelsInfix, "_") == step by {
      assert a + ("_" + b) == step;
    }
    assert '-' !in step by {
      forall i | 0 <= i < |step|
        ensures step[i] != '-'
      {
        if i < |a| { assert step[i] == a[i]; }
        else if i > |a| { assert step[i] == b[i - |a| - 1]; }
      }
    }
    ReplaceAllWithoutPattern(step, SampleModelsSuffix, "");
  }

  /** `<a>-Sample-Models` becomes `<a>` when `a` holds no dash. */
  lemma ListFileNameOfPlain(a: string)
    requires '-' !in a
    ensures ListFileName(a + SampleModelsSuffix) == a
  {
    ReplaceAllKeepsPrefix(a, SampleModelsSuffix, SampleModelsInfix, "_");
    assert ReplaceAll(SampleModelsSuffix, SampleModelsInfix, "_") == SampleModelsSuffix;
    ReplaceAllKeepsPrefix(a, SampleModelsSuffix, SampleModelsSuffix, "");
    assert SampleModelsSuffix == SampleModelsSuffix + [];
    ReplaceAllLeading([], SampleModelsSuffix, "");
    assert a + "" == a;
  }

  /** The list file of the binary sample set: `glTF-Sample-Models-glb` becomes `glTF_glb`. */
  lemma ListFileNameOfBinarySet()
    ensures ListFileName("glTF-Sample-Models-glb") == "glTF_glb"
  {
    var a, b := "glTF", "glb";
    assert '-' !in a && '-' !in b;
    assert a + SampleModelsInfix + b == "glTF-Sample-Models-glb";
    ListFileNameOfVariant(a, b);
    assert a + "_" + b == "glTF_glb";
  }

  /** The list file of the main sample set: `glTF-Sample-Models` becomes `glTF`. */
  lemma ListFileNameOfMainSet()
    ensures ListFileName("glTF-Sample-Models") == "glTF"
  {
    var a := "glTF";
    assert '-' !in a;
    assert a + SampleModelsSuffix == "glTF-Sample-Models";
    ListFileNameOfPlain(a);
  }
}

=== FILE: selection.dfy ===
/**
  Order-preserving selection over sequences: the positions a `foreach` with a
  `continue` filter visits, and the first position a search loop with a `break`
  stops at. Both `SampleSet` listings and the root-object search of the export
  test are instances.
*/
module Selection {
  import opened Wrappers

  /** `idx` lists, in increasing order, exactly the positions of `xs` whose element `keep` accepts. */
  ghost predicate IsSelection<T>(xs: seq<T>, keep: T -> bool, idx: seq<nat>) {
    && (forall k :: 0 <= k < |idx| ==> idx[k] < |xs| && keep(xs[idx[k]]))
    && (forall k, l :: 0 <= k < l < |idx| ==> idx[k] < idx[l])
    && (forall j :: 0 <= j < |xs| && keep(xs[j]) ==> j in idx)
  }

  /** The positions of `xs` accepted by `keep`, in order. */
  function SelectIndices<T>(xs: seq<T>, keep: T -> bool): (idx: seq<nat>)
    ensures IsSelection(xs, keep, idx)
    decreases |xs|
  {
    if |xs| == 0 then []
    else
      var init := SelectIndices(xs[..|xs| - 1], keep);
      assert forall k :: 0 <= k < |init| ==> xs[..|xs| - 1][init[k]] == xs[init[k]];
      if keep(xs[|xs| - 1]) then init + [|xs| - 1] else init
  }

  /** A selection lists at most every position, and lists every one exactly when `keep` accepts all elements. */
  lemma {:induction false} SelectIndicesLength<T>(xs: seq<T>, keep: T -> bool)
    ensures |SelectIndices(xs, keep)| <= |xs|
    ensures |SelectIndices(xs, keep)| == |xs| <==> forall j :: 0 <= j < |xs| ==> keep(xs[j])
    decreases |xs|
  {
    if |xs| > 0 {
      var init := xs[..|xs| - 1];
      SelectIndicesLength(init, keep);
      assert forall j :: 0 <= j < |init| ==> init[j] == xs[j];
    }
  }

  /** The accepted elements of `xs`, each transformed by `f`, in their original order. */
  function MapSelected<T, U>(xs: seq<T>, keep: T -> bool, f: T -> U): (r: seq<U>)
    ensures var idx := SelectIndices(xs, keep);
      && |r| == |idx|
      && forall k :: 0 <= k < |r| ==> r[k] == f(xs[idx[k]])
    decreases |xs|
  {
    if |xs| == 0 then []
    else
      var init := MapSelected(xs[..|xs| - 1], keep, f);
      var idx := SelectIndices(xs[..|xs| - 1], keep);
      assert forall k :: 0 <= k < |idx| ==> xs[..|xs| - 1][idx[k]] == xs[idx[k]];
      if keep(xs[|xs| - 1]) then init + [f(xs[|xs| - 1])] else init
  }

  /** Two strictly increasing sequences with the same members are equal. */
  lemma {:induction false} IncreasingWithSameMembers(a: seq<nat>, b: seq<nat>)
    requires forall k, l :: 0 <= k < l < |a| ==> a[k] < a[l]
    requires forall k, l :: 0 <= k < l < |b| ==> b[k] < b[l]
    requires forall x :: x in a <==> x in b
    ensures a == b
    decreases |a|
  {
    if |b| > 0 {
      assert b[0] in b;
    }
    if |a| > 0 {
      assert a[0] in a;
      assert a[0] in b && b[0] in a;
      var i :| 0 <= i < |a| && a[i] == b[0];
      var j :| 0 <= j < |b| && b[j] == a[0];
      assert a[0] <= a[i] && b[0] <= b[j];
      assert a[0] == b[0];
      TailsHaveSameMembers(a, b);
      IncreasingWithSameMembers(a[1..], b[1..]);
      assert a == [a[0]] + a[1..];
      assert b == [b[0]] + b[1..];
    }
  }

  /** Two increasing sequences with the same members and the same head have tails with the same members. */
  lemma TailsHaveSameMembers(a: seq<nat>, b: seq<nat>)
    requires forall k, l :: 0 <= k < l < |a| ==> a[k] < a[l]
    requires forall k, l :: 0 <= k < l < |b| ==> b[k] < b[l]
    requires forall x :: x in a <==> x in b
    requires 0 < |a| && 0 < |b| && a[0] == b[0]
    ensures forall x :: x in a[1..] <==> x in b[1..]
  {
    forall x
      ensures x in a[1..] <==> x in b[1..]
    {
      if x in a[1..] {
        var p :| 1 <= p < |a| && a[p] == x;
        assert x != a[0] && x in a;
        var q :| 0 <= q < |b| && b[q] == x;
        assert q != 0;
      }
      if x in b[1..] {
        var p :| 1 <= p < |b| && b[p] == x;
        assert x != b[0] && x in b;
        var q :| 0 <= q < |a| && a[q] == x;
        assert q != 0;
      }
    }
  }

  /** A selection is determined by the sequence and the filter: there is only one. */
  lemma SelectionUnique<T>(xs: seq<T>, keep: T -> bool, a: seq<nat>, b: seq<nat>)
    requires IsSelection(xs, keep, a) && IsSelection(xs, keep, b)
    ensures a == b
  {
    forall x
      ensures x in a <==> x in b
    {
      if x in a {
        var k :| 0 <= k < |a| && a[k] == x;
      }
      if x in b {
        var k :| 0 <= k < |b| && b[k] == x;
      }
    }
    IncreasingWithSameMembers(a, b);
  }

  /** The first position at or after `from` whose element satisfies `p`. */
  function FirstIndexFrom<T>(xs: seq<T>, p: T -> bool, from: nat): (r: Option<nat>)
    requires from <= |xs|
    ensures r.Some? ==>
      && from <= r.value < |xs| && p(xs[r.value])
      && forall j :: from <= j < r.value ==> !p(xs[j])
    ensures r.None? ==> forall j :: from <= j < |xs| ==> !p(xs[j])
    decreases |xs| - from
  {
    if from == |xs| then None
    else if p(xs[from]) then Some(from)
    else FirstIndexFrom(xs, p, from + 1)
  }

  /** The first position of `xs` whose element satisfies `p`, as a search loop with `break` finds it. */
  function FirstIndex<T>(xs: seq<T>, p: T -> bool): (r: Option<nat>)
    ensures r.Some? ==> r.value < |xs| && p(xs[r.value]) && forall j :: 0 <= j < r.value ==> !p(xs[j])
    ensures r.None? <==> forall j :: 0 <= j < |xs| ==> !p(xs[j])
  {
    FirstIndexFrom(xs, p, 0)
  }

}

=== FILE: strings.dfy ===
/**
  The ordinal .NET string primitives the core relies on: `IndexOf` for a
  substring and for a character from a start index, and `Replace`, which
  rewrites every non-overlapping occurrence from left to right.
*/
module Strings {

  /** `pat` occurs in `s` starting at position `i`. */
  predicate Occurs(s: string, pat: string, i: int) {
    0 <= i && i + |pat| <= |s| && s[i..i + |pat|] == pat
  }

  /** The first occurrence of `pat` in `s` at or after `from`, or -1 (ordinal `string.IndexOf`). */
  function IndexOfFrom(s: string, pat: string, from: nat): (r: int)
    ensures r == -1 || (from <= r && Occurs(s, pat, r))
    ensures r == -1 ==> forall i :: from <= i ==> !Occurs(s, pat, i)
    ensures r != -1 ==> forall i :: from <= i < r ==> !Occurs(s, pat, i)
    decreases |s| - from
  {
    if from + |pat| > |s| then -1
    else if s[from..from + |pat|] == pat then from
    else IndexOfFrom(s, pat, from + 1)
  }

  /** The first occurrence of `pat` in `s`, or -1. */
  function IndexOf(s: string, pat: string): (r: int)
    ensures r == -1 || Occurs(s, pat, r)
    ensures r == -1 <==> forall i :: 0 <= i ==> !Occurs(s, pat, i)
    ensures forall i :: 0 <= i < r ==> !Occurs(s, pat, i)
  {
    IndexOfFrom(s, pat, 0)
  }

  /** The first position at or after `from` holding `c`, or -1 (`string.IndexOf(char, int)`). */
  function IndexOfChar(s: string, c: char, from: nat): (r: int)
    requires from <= |s|
    ensures r == -1 || (from <= r < |s| && s[r] == c)
    ensures r == -1 <==> forall i :: from <= i < |s| ==> s[i] != c
    ensures forall i :: from <= i < r ==> s[i] != c
    decreases |s| - from
  {
    if from == |s| then -1
    else if s[from] == c then from
    else IndexOfChar(s, c, from + 1)
  }

  /** `string.Replace(pat, rep)`: every non-overlapping occurrence of `pat`, leftmost first, becomes `rep`. */
  function ReplaceAll(s: string, pat: string, rep: string): (r: string)
    requires |pat| > 0
    ensures pat[0] !in s ==> r == s
    ensures |rep| == |pat| ==> |r| == |s|
    decreases |s|
  {
    if |s| < |pat| then s
    else if s[..|pat|] == pat then
      assert s[..|pat|][0] == s[0];
      rep + ReplaceAll(s[|pat|..], pat, rep)
    else
      assert pat[0] !in s ==> pat[0] !in s[1..];
      [s[0]] + ReplaceAll(s[1..], pat, rep)
  }

  /** A prefix free of the pattern's first character passes through `Replace` untouched. */
  lemma {:induction false} ReplaceAllKeepsPrefix(a: string, t: string, pat: string, rep: string)
    requires |pat| > 0 && pat[0] !in a
    ensures ReplaceAll(a + t, pat, rep) == a + ReplaceAll(t, pat, rep)
    decreases |a|
  {
    if |a| > 0 {
      var s := a + t;
      assert s[0] == a[0] != pat[0];
      if |s| >= |pat| {
        assert s[..|pat|][0] == s[0];
        assert s[..|pat|] != pat;
      }
      assert s[1..] == a[1..] + t;
      ReplaceAllKeepsPrefix(a[1..], t, pat, rep);
      assert a == [a[0]] + a[1..];
    } else {
      assert a + t == t;
    }
  }

  /** A string without the pattern's first character is its own `Replace` image. */
  lemma ReplaceAllWithoutPattern(s: string, pat: string, rep: string)
    requires |pat| > 0 && pat[0] !in s
    ensures ReplaceAll(s, pat, rep) == s
  {
    ReplaceAllKeepsPrefix(s, [], pat, rep);
    assert s + [] == s;
  }

  /** A leading occurrence is replaced and scanning resumes right after it. */
  lemma ReplaceAllLeading(t: string, pat: string, rep: string)
    requires |pat| > 0
    ensures ReplaceAll(pat + t, pat, rep) == rep + ReplaceAll(t, pat, rep)
  {
    assert (pat + t)[..|pat|] == pat;
    assert (pat + t)[|pat|..] == t;
  }
}

=== FILE: wrappers.dfy ===
/** Failure-compatible result types shared by the model. */
module Wrappers {

  /** A value that may be absent: C#'s `null` for reference results. */
  datatype Option<+T> = None | Some(value: T)

  /** The outcome of an operation that may throw instead of returning. */
  datatype Result<+R, +E> = Success(value: R) | Failure(error: E)
}
